=== FILE: README.md ===
# Adaptive interpolation smoother — a Dafny model

This project models the buffering logic of FishNet's `AdaptiveInterpolationSmoother`. A
non-owner client uses it to smooth a predicted object's graphics. After every tick, and after
every replayed tick, the smoother queues a goal: a target transform for that tick, plus the
rates that reach it in one tick's time. Each rendered frame then moves the graphical object
towards the current goal. Frames run faster when more goals are queued than an
interpolation delay asks for, and slower when fewer are. When a goal's time runs out, the
next goal takes over and receives the overrun. The delay itself is an integer number of
ticks. It steps towards one of two targets derived from the round-trip time: a shorter one
while the object collides with the local client, and a normal one otherwise.

The model is functional. Goals and rate records are immutable values, the queue is a
`seq<GoalData>`, and every hook is a pure function from state to state. Modules:

- `Transforms`: opaque positions and rotations, with the engine's distance, angle,
  move-towards and rotate-towards passed in as uninterpreted functions (`Geometry`).
- `Settings`: the smoothing settings and the tick duration.
- `Goals`: `RateData`, `GoalData`, the 32-bit tick and its wrap-around subtraction.
- `Rates`: rate calculation for two consecutive goals.
- `Interpolation`: the delay controller.
- `GoalQueue`: dequeue, stale-tick test, clear, append.
- `Motion`: the frame step (`MoveToTarget`) and its speed multiplier.
- `Smoother`: the `OnPreTick`, `OnPostTick`, `OnPostReplay` and `Update` hooks, and runs
  of them.

Two predicates carry no contract of their own and are used inside the contracts above: `Smoother.CanSmooth` (source lines 359-367: only a non-owner that is not a server-only instance smooths) gates every hook, and `Motion.GraphicalObjectMatches` (lines 373-378: the graphical object sits on a goal, counting an unsmoothed axis as matching) decides whether a used-up goal stays live.

All source paths below are in
`Assets/FishNet/Runtime/Object/Prediction/AdaptiveInterpolationSmoother.cs`.

## Model

| member | source | states |
|---|---|---|
| Goals.ResetGoal | Assets/FishNet/Runtime/Object/Prediction/AdaptiveInterpolationSmoother.cs:40-46 | a reset goal is invalid, at tick 0, with all rates and the time remaining zero |
| Goals.CopyGoal | Assets/FishNet/Runtime/Object/Prediction/AdaptiveInterpolationSmoother.cs:51-57 | copying a goal takes its tick, rates and transform and makes the copy valid; the copy differs from its source in validity at most |
| Goals.TickSub | Assets/FishNet/Runtime/Object/Prediction/AdaptiveInterpolationSmoother.cs:577 | unsigned tick subtraction is the plain difference when it does not go below zero, and wraps around by 2^32 when it does |
| Rates.ElapsedTicks | Assets/FishNet/Runtime/Object/Prediction/AdaptiveInterpolationSmoother.cs:570-577 | a settled previous tick (0) gives a span of one tick; an ordered pair of ticks gives their difference; for a non-zero previous tick the span is zero exactly when the ticks are equal, and a previous tick after the next one wraps around to their difference plus 2^32 |
| Rates.RateFor | Assets/FishNet/Runtime/Object/Prediction/AdaptiveInterpolationSmoother.cs:596-607 | over positive time, the rate covers the amount exactly: a positive speed times the time gives the amount, and a zero amount gives the instant sentinel; over zero time a positive amount gives the sentinel and a zero amount a zero rate; the rate is never negative except for the sentinel |
| Rates.SetCalculatedRates | Assets/FishNet/Runtime/Object/Prediction/AdaptiveInterpolationSmoother.cs:553-610 | only the rates change. An unchanged transform on the reliable channel copies the previous rates and marks the tick settled (0). A teleport-distance jump gets the instant rates of `SetInstantRates`: sentinel, sentinel, span 1, sentinel. Otherwise the span is the elapsed ticks, the time remaining is that many tick durations, and both rates cover their change in that time |
| Rates.SettledStaysSettled | Assets/FishNet/Runtime/Object/Prediction/AdaptiveInterpolationSmoother.cs:561-568 | a second identical reliable update on a settled goal still carries the original rates and stays settled |
| Rates.AdjacentTicksSpanOne | Assets/FishNet/Runtime/Object/Prediction/AdaptiveInterpolationSmoother.cs:570-581 | goals one tick apart, or following a settled goal, span one tick and, unless they teleport, one tick duration |
| Interpolation.TimeToTicksRoundUp | Assets/FishNet/Runtime/Object/Prediction/AdaptiveInterpolationSmoother.cs:335-338 | the result is the fewest ticks whose duration covers the time |
| Interpolation.SetTargetSmoothing | Assets/FishNet/Runtime/Object/Prediction/AdaptiveInterpolationSmoother.cs:331-343 | each target is the fewest ticks covering its fraction of the round trip; the current delay jumps to the collision or normal target only when asked, and is otherwise untouched |
| Interpolation.UpdatePingInterpolation | Assets/FishNet/Runtime/Object/Prediction/AdaptiveInterpolationSmoother.cs:314-325 | the new round trip is always remembered and the current delay is not moved; the targets change only when the round trip moved by more than 25 ms (or was never measured), and are then retargeted |
| Interpolation.Clamp | Assets/FishNet/Runtime/Object/Prediction/AdaptiveInterpolationSmoother.cs:308 | the literal `Mathf.Clamp`: a value below the minimum gives the minimum; otherwise a value above the maximum gives the maximum, even when the bounds are inverted; so with ordered bounds the result is in range, and a value already in range is kept |
| Interpolation.UpdateCurrentInterpolation | Assets/FishNet/Runtime/Object/Prediction/AdaptiveInterpolationSmoother.cs:299-309 | the targets stay. While colliding the delay drops by exactly the decrease step when that stays within the targets; a step below the collision target lands on the collision target, and a step at or above the collision target but above the normal target lands on the normal target, even with inverted targets. Otherwise it rises by exactly the increase step when that stays within the targets; a step below the collision target lands on the collision target, and a step at or above the collision target but above the normal target lands on the normal target, even with inverted targets. With ordered targets the result is always in range; from inside the range it never moves the wrong way |
| Interpolation.ClampExceedsInvertedRange | Assets/FishNet/Runtime/Object/Prediction/AdaptiveInterpolationSmoother.cs:308 | with the collision target above the normal target, a low delay is raised past the normal target, so the clamp is only safe for ordered targets |
| Interpolation.RoundUpMonotone | Assets/FishNet/Runtime/Object/Prediction/AdaptiveInterpolationSmoother.cs:335-338 | more time never rounds up to fewer ticks |
| Interpolation.BufferTicksMonotone | Assets/FishNet/Runtime/Object/Prediction/AdaptiveInterpolationSmoother.cs:333-337 | a larger fraction of the round trip never gives a smaller target |
| Interpolation.RetargetKeepsTargetsOrdered | Assets/FishNet/Runtime/Object/Prediction/AdaptiveInterpolationSmoother.cs:331-339 | when the collision fraction is at most the normal fraction, retargeting keeps the collision target at most the normal target |
| Interpolation.PingGateIdempotent | Assets/FishNet/Runtime/Object/Prediction/AdaptiveInterpolationSmoother.cs:314-325 | seeing the same round trip twice retargets at most once |
| Interpolation.HundredMillisecondsIsFiveTicks | Assets/FishNet/Runtime/Object/Prediction/AdaptiveInterpolationSmoother.cs:333-336 | a 100 ms round trip, buffered in full at 20 ms ticks, is a target of 5 ticks |
| Interpolation.FallReachesCollisionTarget | Assets/FishNet/Runtime/Object/Prediction/AdaptiveInterpolationSmoother.cs:303-308 | while colliding, enough steps take a delay from inside the range down to the collision target |
| Interpolation.RiseReachesTarget | Assets/FishNet/Runtime/Object/Prediction/AdaptiveInterpolationSmoother.cs:299-309 | without collisions, enough steps take a delay from inside the range to the normal target |
| GoalQueue.SetCurrentGoalData | Assets/FishNet/Runtime/Object/Prediction/AdaptiveInterpolationSmoother.cs:403-428 | on an empty queue the current goal is invalidated, nothing else changes and the result is false; otherwise the current goal takes the head's tick, rates and transform and becomes valid, the queue is its old tail, and the result is true |
| GoalQueue.OldGoalDataTick | Assets/FishNet/Runtime/Object/Prediction/AdaptiveInterpolationSmoother.cs:640-644 | a tick is old exactly when it is at or before the current goal's tick, which is returned alongside |
| GoalQueue.StaleTickAppendsNothing | Assets/FishNet/Runtime/Object/Prediction/AdaptiveInterpolationSmoother.cs:708-735 | the stale test decides appending: a tick it calls old never grows the queue, and any other tick grows it by exactly one |
| GoalQueue.ClearGoalDatas | Assets/FishNet/Runtime/Object/Prediction/AdaptiveInterpolationSmoother.cs:691-701 | the queue is emptied; the current goal is reset only when asked and is otherwise untouched |
| GoalQueue.CreateGoalDataFromRootPostSimulate | Assets/FishNet/Runtime/Object/Prediction/AdaptiveInterpolationSmoother.cs:678-686 | the reference goal is a reset goal (invalid, reset rates) for the given tick at the last post-simulation root transform |
| GoalQueue.CreateNextGoalData | Assets/FishNet/Runtime/Object/Prediction/AdaptiveInterpolationSmoother.cs:650-671 | the new goal is invalid, for the given tick, aimed at the root on smoothed axes and at the pre-tick graphics on the others; its rates are instant for a teleport jump and otherwise span the elapsed ticks and cover the change in that many tick durations |
| GoalQueue.CreatePostSimulateGoalData | Assets/FishNet/Runtime/Object/Prediction/AdaptiveInterpolationSmoother.cs:708-735 | the current goal never changes. A tick at or before the current goal's appends nothing, and a replay of exactly that tick empties the queue. A newer tick appends exactly one goal at the tail: not yet valid, for that tick, aimed at the root transform (pre-tick graphics on unsmoothed axes), spanning one tick, and either instant (teleport) or covering the change in one tick duration |
| GoalQueue.AppendKeepsNextGoal | Assets/FishNet/Runtime/Object/Prediction/AdaptiveInterpolationSmoother.cs:733 | appending is FIFO: it never changes which goal becomes current next |
| GoalQueue.PendingTicksCanDecrease | Assets/FishNet/Runtime/Object/Prediction/AdaptiveInterpolationSmoother.cs:640-644 | the stale test compares only with the current goal, so a replayed tick can be queued behind a newer one: pending ticks are not ordered |
| Motion.SpeedMultiplier | Assets/FishNet/Runtime/Object/Prediction/AdaptiveInterpolationSmoother.cs:459-477 | the multiplier is exactly 1.1 when more goals are queued than the delay, exactly 1 when they are equal, and 1 minus the smaller of 0.02 per missing goal and 0.9 when fewer are queued; so it lies in [0.1, 1.1] and is above, equal to or below 1 exactly when the queue is longer than, equal to or shorter than the delay |
| Motion.MultiplierMonotone | Assets/FishNet/Runtime/Object/Prediction/AdaptiveInterpolationSmoother.cs:459-477 | more queued goals never slow the object down |
| Motion.MultiplierUnderflow | Assets/FishNet/Runtime/Object/Prediction/AdaptiveInterpolationSmoother.cs:466-473 | each missing goal up to 45 slows by 0.02; from 45 on the multiplier stays at 0.1 |
| Motion.MultiplierExamples | Assets/FishNet/Runtime/Object/Prediction/AdaptiveInterpolationSmoother.cs:459-477 | 8 queued against a delay of 5 gives 1.1; 2 against 5 gives 0.94 |
| Motion.MoveAxes | Assets/FishNet/Runtime/Object/Prediction/AdaptiveInterpolationSmoother.cs:479-503 | an unsmoothed axis, or one with a rate that is neither the sentinel nor positive, does not move; the sentinel snaps the axis onto the goal; a positive rate moves the position towards the goal by rate times delta times the multiplier, and the rotation by rate times delta without the multiplier |
| Motion.RunDown | Assets/FishNet/Runtime/Object/Prediction/AdaptiveInterpolationSmoother.cs:505-511 | time remaining that is already used up is left alone; positive time remaining drops by exactly the elapsed time |
| Motion.Activate | Assets/FishNet/Runtime/Object/Prediction/AdaptiveInterpolationSmoother.cs:439-443 | a frame has work exactly when the current goal is valid or a goal is pending; a valid goal is kept, otherwise the next one is taken |
| Motion.MovePass | Assets/FishNet/Runtime/Object/Prediction/AdaptiveInterpolationSmoother.cs:505-535 | one pass consumes at most the head goal. Consuming nothing keeps the goal's tick and target; consuming the head makes it current. With goals pending, the head is taken exactly when the run-down time reaches zero or below; the pass carries on exactly when goals were pending and the time went strictly below zero, and it carries the overrun's magnitude. The graphics make exactly one `MoveAxes` move towards the current goal at the queue's speed multiplier, and a goal that is not consumed has its time run down by delta times that multiplier. The smoother is never idle with goals pending, and unsmoothed axes stay put |
| Motion.FinishConsumesFromFront | Assets/FishNet/Runtime/Object/Prediction/AdaptiveInterpolationSmoother.cs:514-524 | the passes of one frame leave a suffix of the queue |
| Motion.FinishTakesLastConsumed | Assets/FishNet/Runtime/Object/Prediction/AdaptiveInterpolationSmoother.cs:514-524 | after the passes of one frame, the goal last consumed is current, or the same goal if none was consumed |
| Motion.FinishKeepsInvariants | Assets/FishNet/Runtime/Object/Prediction/AdaptiveInterpolationSmoother.cs:514-535 | after the passes of one frame, the smoother is idle only with an empty queue, and unsmoothed axes have not moved |
| Motion.MoveToTargetConsumesFromFront | Assets/FishNet/Runtime/Object/Prediction/AdaptiveInterpolationSmoother.cs:434-537 | a whole frame only consumes goals from the front: the result queue is a suffix of the input queue |
| Motion.MoveToTargetTakesLastConsumed | Assets/FishNet/Runtime/Object/Prediction/AdaptiveInterpolationSmoother.cs:434-537 | after a frame, the goal last consumed is current; when nothing was consumed, a goal that was valid is still current |
| Motion.MoveToTarget | Assets/FishNet/Runtime/Object/Prediction/AdaptiveInterpolationSmoother.cs:434-537 | with nothing to work on a frame changes nothing; otherwise it ends idle only with an empty queue, and it never moves an unsmoothed axis |
| Motion.FrameRunsDown | Assets/FishNet/Runtime/Object/Prediction/AdaptiveInterpolationSmoother.cs:505-511 | while time remains after the frame, the goal stays current, its time drops by delta times the multiplier, nothing is consumed, and the graphics make one `MoveAxes` move towards it at that multiplier |
| Motion.FrameHoldsWhenDry | Assets/FishNet/Runtime/Object/Prediction/AdaptiveInterpolationSmoother.cs:525-535 | a used-up goal with nothing queued keeps its tick and target, and stays live exactly when the graphical object has not reached it on the smoothed axes |
| Motion.PassCarriesOverrun | Assets/FishNet/Runtime/Object/Prediction/AdaptiveInterpolationSmoother.cs:514-524 | a pass that overruns a goal with more queued moves, takes the next goal and carries the overrun as the remaining frame time |
| Motion.FrameCarriesLeftover | Assets/FishNet/Runtime/Object/Prediction/AdaptiveInterpolationSmoother.cs:514-524 | an overrun goal's frame equals the next goal's frame over the overrun, so no frame time is lost |
| Motion.ThreeFramesThenCarry | Assets/FishNet/Runtime/Object/Prediction/AdaptiveInterpolationSmoother.cs:505-524 | a goal with 0.05 s left is finished by the third 0.02 s frame, and the 0.01 s overrun runs the next goal down at the shorter queue's multiplier 0.98 |
| Motion.InstantGoalCarriesOneSecond | Assets/FishNet/Runtime/Object/Prediction/AdaptiveInterpolationSmoother.cs:543-547 | a snapped goal holds the sentinel -1 as its time remaining, so finishing it hands one whole second to the goals behind it |
| Smoother.OnPreTick | Assets/FishNet/Runtime/Object/Prediction/AdaptiveInterpolationSmoother.cs:224-231 | without `CanSmooth` nothing changes; otherwise the delay follows `UpdatePingInterpolation` (the round trip is remembered, the current delay stays, and the targets are recomputed only past the 25 ms gate), the graphical transform is captured, and nothing else changes |
| Smoother.OnPostTick | Assets/FishNet/Runtime/Object/Prediction/AdaptiveInterpolationSmoother.cs:236-254 | without `CanSmooth` nothing changes. Otherwise the graphics go back to their pre-tick transform, the root transform and tick are recorded, and the delay takes one `UpdateCurrentInterpolation` step, landing between ordered targets. The queue follows `CreatePostSimulateGoalData` measured from the previous post-simulation root, before it is overwritten with this tick's: a replicate tick newer than the current goal is queued at the tail; an older one changes nothing |
| Smoother.OnPostReplay | Assets/FishNet/Runtime/Object/Prediction/AdaptiveInterpolationSmoother.cs:272-284 | without `CanSmooth` nothing changes. Otherwise the delay and graphics are left alone and the root transform and tick are recorded. The queue follows `CreatePostSimulateGoalData` measured from the previous post-simulation root, before it is overwritten. Replaying the current goal's tick empties the queue; a newer tick is queued at the tail; an older one changes nothing |
| Smoother.Update | Assets/FishNet/Runtime/Object/Prediction/AdaptiveInterpolationSmoother.cs:214-218 | a frame never changes the delay or the recorded pre-tick and post-simulation values, and does nothing without `CanSmooth`; otherwise the queue and the graphics are exactly one `MoveToTarget` frame at the current delay |
| Smoother.StepKeepsTargetsOrdered | Assets/FishNet/Runtime/Object/Prediction/AdaptiveInterpolationSmoother.cs:224-231 | with the collision fraction at most the normal fraction, every hook keeps the collision target at most the normal target |
| Smoother.RunKeepsTargetsOrdered | Assets/FishNet/Runtime/Object/Prediction/AdaptiveInterpolationSmoother.cs:299-343 | the targets stay ordered through any run of hooks |
| Smoother.DelayInRangeAfterPostTick | Assets/FishNet/Runtime/Object/Prediction/AdaptiveInterpolationSmoother.cs:236-241 | after any run of hooks from a fresh smoother, a post-tick leaves the delay between the two targets |
| Smoother.InitialDelayOutOfRange | Assets/FishNet/Runtime/Object/Prediction/AdaptiveInterpolationSmoother.cs:147-153 | a fresh smoother's delay of 2 lies above its unset targets of 0, so the delay is not in range at all times |
| Smoother.TickRestoresGraphical | Assets/FishNet/Runtime/Object/Prediction/AdaptiveInterpolationSmoother.cs:224-244 | a pre-tick followed by a post-tick leaves the graphical object where it was before the tick |
| Smoother.UpdateConsumesFromFront | Assets/FishNet/Runtime/Object/Prediction/AdaptiveInterpolationSmoother.cs:214-218 | a frame leaves a suffix of the queue, and a frame that runs ends idle only with nothing pending |
| Smoother.ReplayRebuildsQueue | Assets/FishNet/Runtime/Object/Prediction/AdaptiveInterpolationSmoother.cs:272-284 | replaying the current goal's tick and then two newer ticks leaves exactly the two new goals, in replay order |

## Left out

- Unity geometry: `Vector3.Distance`, `Quaternion.Angle`, `Vector3.MoveTowards` and `Quaternion.RotateTowards` are uninterpreted functions. The only assumption is that distances and angles are non-negative.
- Floating point: every `float`/`double` is a `real`. A zero tick span divides by zero. A positive amount then gives infinity, which for a positive frame delta the frame step treats like the instant sentinel, so it is modelled as the sentinel; a zero frame delta with an infinite rate gives a NaN step to the engine's move-towards, which is not modelled. A zero amount gives NaN, which is modelled as a zero rate: the frame step compares a rate with -1 and with 0 before moving, and both tests are false for NaN as for 0, so the axis stays put either way. A zero span never arises from `CreatePostSimulateGoalData`, whose previous goal is always at `tick - 1`; it needs the unused reliable path or other callers of `SetCalculatedRates`.
- Unity's `==` on vectors and quaternions is approximate; the model uses exact equality of the opaque values.
- The instant sentinel `MoveRates.INSTANT_VALUE` is defined outside this file. It is taken to be -1, because the frame step compares rates with the literal -1. The unset teleport threshold is the alternative `NoTeleport` rather than a number.
- `TimeManager.TimeToTicks` and `TicksToTime` are defined outside this file. Rounding up is the exact ceiling of time over tick duration, without the cast to a 32-bit unsigned value. Ticks to time is ticks times the tick duration.
- Interpolation.SetTargetSmoothing: targets are unbounded naturals, not capped at 2^32 - 1.
- The first round trip: `_lastPing` starts at the most negative long, and the subtraction and float absolute value on it overflow. This is modelled as `NeverMeasured`, which always retargets. A negative round-trip time is not modelled.
- `OnPreReplay` only resets a diagnostic flag and logs, so it changes no modelled state.
- `RemoveExcessiveGoalDatas` only logs; its trimming is commented out.
- All `Debug.Log`, `Debug.LogError` and `Debug.DrawLine` calls are left out.
- `ResettableObjectCaches` pooling is left out; goals are immutable values. `ClearGoalDatas(true)` also returns the live current goal to the pool, an aliasing hazard. The model resets the current goal instead, and no hook passes true.
- `Initialize`, `SetGraphicalObject` and `UpdateRootPostSimulateOffsets` are reduced to setting state fields. Transform reads and writes on the engine side are fields of the state or of `Host`.
- The graphical object is a child of the root, so in the program it moves with the root while ticks and replays are simulated; post-tick then puts it back to its pre-tick value. The model keeps the graphical transform independent of the root: a replay, or a tick without a pre-tick, leaves the graphics where they were instead of letting them drift with the root.
- The smoothing settings come from `AdaptiveInterpolationSmoothingData`, which is not part of this model. Every hook assumes a positive tick duration and non-negative interpolation percents (`SmoothingData.Valid`); a negative percent would make the round-up time negative before the cast to an unsigned tick count, which is not modelled.
- `Update` takes the frame's `Time.deltaTime` as a parameter. The round-trip time, the collision test and the replicate tick are read from `Host`.
- `HasChanged` appears only through the `Settles` predicate.
- Motion.MoveToTarget: its own contract states the idle case and the invariants; which goals it consumes and which becomes current are stated by the `MoveToTarget*` and `Finish*` lemmas, because the recursive passes are too costly to verify inside one contract.

## Notes on the code

- The pending queue is not ordered by tick. A replayed tick newer than the current goal is appended behind newer goals already queued (`GoalQueue.PendingTicksCanDecrease`).
- The delay is not always in range. A fresh smoother starts at 2 with both targets 0 (`Smoother.InitialDelayOutOfRange`). After a post-tick it is in range whenever the collision target is at most the normal target (`Smoother.DelayInRangeAfterPostTick`).
- Under the assumed sentinel -1, a snapped goal's time remaining is -1. Finishing it therefore carries a full second of movement into the following goals (`Motion.InstantGoalCarriesOneSecond`).

=== FILE: goal_queue.dfy ===
/** The goal-queue manager: one current goal plus a FIFO list of pending goals keyed by tick
    (`SetCurrentGoalData`, `OldGoalDataTick`, `ClearGoalDatas`, `CreatePostSimulateGoalData`). */
module GoalQueue {
  import opened Transforms
  import opened Settings
  import opened Goals
  import opened Rates

  /** The goal being traversed and the goals waiting behind it, oldest first. Nothing orders
      the pending ticks: appending compares only against the current goal's tick. */
  datatype GoalBuffer = GoalBuffer(current: GoalData, pending: seq<GoalData>)

  /** A fresh smoother: an invalid current goal at tick 0 and nothing pending. */
  const INITIAL_BUFFER: GoalBuffer := GoalBuffer(ResetGoal(), [])

  /** `SetCurrentGoalData`: make the oldest pending goal current. With nothing pending the
      current goal is only marked invalid; otherwise it takes the head's tick, rates and
      transform, becomes valid, and the head leaves the queue. The result says which. */
  function SetCurrentGoalData(b: GoalBuffer): (r: (GoalBuffer, bool))
    ensures r.1 <==> |b.pending| > 0
    ensures !r.1 ==> r.0 == b.(current := b.current.(isValid := false))
    ensures r.1 ==> && r.0.current.isValid
                    && r.0.current.localTick == b.pending[0].localTick
                    && r.0.current.moveRates == b.pending[0].moveRates
                    && r.0.current.transform == b.pending[0].transform
                    && r.0.pending == b.pending[1..]
  {
    if |b.pending| == 0 then
      (b.(current := b.current.(isValid := false)), false)
    else
      (GoalBuffer(CopyGoal(b.pending[0]), b.pending[1..]), true)
  }

  /** `OldGoalDataTick`: whether `tick` is at or before the current goal's tick, and that tick. */
  function OldGoalDataTick(b: GoalBuffer, tick: Tick): (r: (bool, Tick))
    ensures r.0 <==> tick <= b.current.localTick
    ensures r.1 == b.current.localTick
  {
    (tick <= b.current.localTick, b.current.localTick)
  }

  /** `ClearGoalDatas`: drop every pending goal, and with `clearCurrent` also reset the
      current one. */
  function ClearGoalDatas(b: GoalBuffer, clearCurrent: bool): (r: GoalBuffer)
    ensures r.pending == []
    ensures clearCurrent ==> !r.current.isValid && r.current.localTick == 0
    ensures !clearCurrent ==> r.current == b.current
  {
    GoalBuffer(if clearCurrent then ResetGoal() else b.current, [])
  }

  /** The transform a new goal aims at: the root transform, except that an axis that is not
      smoothed keeps the graphical object's pre-tick value. */
  function NextTransform(data: SmoothingData, root: TransformProperties, graphicalPretick: TransformProperties): TransformProperties {
    TransformProperties(
      if data.smoothPosition then root.position else graphicalPretick.position,
      if data.smoothRotation then root.rotation else graphicalPretick.rotation)
  }

  /** `CreateGoalDataFromRootPostSimulate`: the reference goal for the previous tick, built
      from the last post-simulation root transform; its rates stay reset. */
  function CreateGoalDataFromRootPostSimulate(rootPostSimulate: TransformProperties, tick: Tick): (r: GoalData)
    ensures !r.isValid && r.localTick == tick && r.transform == rootPostSimulate
    ensures r.moveRates == RESET_RATES
  {
    ResetGoal().(localTick := tick, transform := rootPostSimulate)
  }

  /** `CreateNextGoalData`: a pooled goal for `tick` aiming at the live transform, with rates
      from `prev` computed as for an unreliable update. */
  function CreateNextGoalData(tick: Tick, prev: GoalData, data: SmoothingData, geo: Geometry,
                              root: TransformProperties, graphicalPretick: TransformProperties): (r: GoalData)
    requires data.Valid()
    ensures !r.isValid && r.localTick == tick
    // smoothed axes aim at the root, the others stay at the pre-tick graphics
    ensures r.transform.position == (if data.smoothPosition then root.position else graphicalPretick.position)
    ensures r.transform.rotation == (if data.smoothRotation then root.rotation else graphicalPretick.rotation)
    ensures Teleports(data.teleport, geo.distance(prev.transform.position, r.transform.position)) ==>
              r.moveRates == INSTANT_RATES
    ensures !Teleports(data.teleport, geo.distance(prev.transform.position, r.transform.position)) ==>
              var span := ElapsedTicks(prev.localTick, tick);
              && r.moveRates.tickSpan == span
              && r.moveRates.timeRemaining == span as real * data.tickDelta
              && (span > 0 ==>
                   && Covers(r.moveRates.position, geo.distance(prev.transform.position, r.transform.position), r.moveRates.timeRemaining)
                   && Covers(r.moveRates.rotation, geo.angle(prev.transform.rotation, r.transform.rotation), r.moveRates.timeRemaining))
  {
    var next := ResetGoal().(localTick := tick, transform := NextTransform(data, root, graphicalPretick));
    SetCalculatedRates(prev, next, Unreliable, data, geo)
  }

  /** `CreatePostSimulateGoalData`: after a tick or a replayed tick, queue a goal for it.
      A tick at or before the current goal's is stale and nothing is appended; a replay of
      exactly the current goal's tick empties the queue so it is rebuilt from there.
      Otherwise exactly one goal for `tick` is appended at the tail. It spans one tick from
      the last post-simulation transform and either snaps (a teleport) or covers the change
      in one tick duration. */
  function CreatePostSimulateGoalData(b: GoalBuffer, tick: Tick, postTick: bool, data: SmoothingData, geo: Geometry,
                                      rootPostSimulate: TransformProperties, root: TransformProperties,
                                      graphicalPretick: TransformProperties): (r: GoalBuffer)
    requires data.Valid()
    ensures r.current == b.current
    ensures tick <= b.current.localTick ==>
              r.pending == (if !postTick && tick == b.current.localTick then [] else b.pending)
    ensures tick > b.current.localTick ==> |r.pending| == |b.pending| + 1 && r.pending[..|b.pending|] == b.pending
    ensures tick > b.current.localTick ==>
              var appended := r.pending[|b.pending|];
              var target := NextTransform(data, root, graphicalPretick);
              var distance := geo.distance(rootPostSimulate.position, target.position);
              && !appended.isValid
              && appended.localTick == tick
              && appended.transform == target
              && appended.moveRates.tickSpan == 1
              && (Teleports(data.teleport, distance) ==> appended.moveRates == INSTANT_RATES)
              && (!Teleports(data.teleport, distance) ==>
                    && appended.moveRates.timeRemaining == data.tickDelta
                    && Covers(appended.moveRates.position, distance, data.tickDelta)
                    && Covers(appended.moveRates.rotation, geo.angle(rootPostSimulate.rotation, target.rotation), data.tickDelta))
  {
    var (stale, currentGoalDataTick) := OldGoalDataTick(b, tick);
    if stale then
      if !postTick && tick == currentGoalDataTick then ClearGoalDatas(b, false) else b
    else
      var prev := CreateGoalDataFromRootPostSimulate(rootPostSimulate, tick - 1);
      var next := CreateNextGoalData(tick, prev, data, geo, root, graphicalPretick);
      AdjacentTicksSpanOne(prev, next.(moveRates := RESET_RATES), data, geo);
      b.(pending := b.pending + [next])
  }

  /** The stale test decides whether a goal is appended: a tick it calls old never grows the
      queue, and any other tick grows it by exactly one. */
  lemma StaleTickAppendsNothing(b: GoalBuffer, tick: Tick, postTick: bool, data: SmoothingData, geo: Geometry,
                                rootPostSimulate: TransformProperties, root: TransformProperties,
                                graphicalPretick: TransformProperties)
    requires data.Valid()
    ensures var r := CreatePostSimulateGoalData(b, tick, postTick, data, geo, rootPostSimulate, root, graphicalPretick);
            && (OldGoalDataTick(b, tick).0 <==> |r.pending| <= |b.pending|)
            && (!OldGoalDataTick(b, tick).0 <==> |r.pending| == |b.pending| + 1)
  {
  }

  /** Appending is FIFO: a new goal never changes which pending goal becomes current next. */
  lemma AppendKeepsNextGoal(b: GoalBuffer, tick: Tick, postTick: bool, data: SmoothingData, geo: Geometry,
                            rootPostSimulate: TransformProperties, root: TransformProperties,
                            graphicalPretick: TransformProperties)
    requires data.Valid()
    requires |b.pending| > 0 && tick > b.current.localTick
    ensures var appended := CreatePostSimulateGoalData(b, tick, postTick, data, geo, rootPostSimulate, root, graphicalPretick);
            SetCurrentGoalData(appended).0.current == SetCurrentGoalData(b).0.current
  {
    var appended := CreatePostSimulateGoalData(b, tick, postTick, data, geo, rootPostSimulate, root, graphicalPretick);
    assert appended.pending[0] == b.pending[0];
  }

  /** Nothing keeps the pending ticks increasing: a replayed tick between the current goal and
      the newest pending goal is appended after that newer goal. */
  lemma PendingTicksCanDecrease(b: GoalBuffer, tick: Tick, data: SmoothingData, geo: Geometry,
                                rootPostSimulate: TransformProperties, root: TransformProperties,
                                graphicalPretick: TransformProperties)
    requires data.Valid()
    requires |b.pending| > 0 && b.current.localTick < tick < b.pending[|b.pending| - 1].localTick
    ensures var r := CreatePostSimulateGoalData(b, tick, false, data, geo, rootPostSimulate, root, graphicalPretick);
            r.pending[|r.pending| - 2].localTick > r.pending[|r.pending| - 1].localTick
  {
    var r := CreatePostSimulateGoalData(b, tick, false, data, geo, rootPostSimulate, root, graphicalPretick);
    assert r.pending[|r.pending| - 2] == r.pending[..|b.pending|][|b.pending| - 1];
  }
}

=== FILE: goals.dfy ===
/** The two records the smoother buffers: a rate descriptor and a goal (tick, transform, rates). */
module Goals {
  import opened Transforms

  const TICK_MODULUS: int := 0x1_0000_0000

  /** A local simulation tick: a 32-bit unsigned integer. */
  type Tick = x: int | 0 <= x < 0x1_0000_0000

  /** The sentinel rate that means "snap to the goal at once". The smoother compares rates
      against -1 literally, so the sentinel is taken to be -1. */
  const INSTANT: real := -1.0

  /** How fast to move towards a goal, over how many ticks, and how long is left. */
  datatype RateData = RateData(position: real, rotation: real, tickSpan: Tick, timeRemaining: real)

  /** The values a reset rate record holds. */
  const RESET_RATES: RateData := RateData(0.0, 0.0, 0, 0.0)

  /** A goal to move towards. A `localTick` of 0 is the "settled" sentinel. */
  datatype GoalData = GoalData(isValid: bool, localTick: Tick, moveRates: RateData, transform: TransformProperties)

  /** `GoalData.ResetState`: the record a pool hands out. */
  function ResetGoal(): (r: GoalData)
    ensures !r.isValid && r.localTick == 0
    ensures r.moveRates.tickSpan == 0 && r.moveRates.timeRemaining == 0.0
    ensures r.moveRates.position == 0.0 && r.moveRates.rotation == 0.0
  {
    GoalData(false, 0, RESET_RATES, RESET_TRANSFORM)
  }

  /** `GoalData.Update(GoalData)`: copy another goal's tick, rates and transform and become
      live work. The copy differs from its source in validity at most. */
  function CopyGoal(gd: GoalData): (r: GoalData)
    ensures r.isValid
    ensures r.(isValid := gd.isValid) == gd
  {
    GoalData(true, gd.localTick, gd.moveRates, gd.transform)
  }

  /** 32-bit unsigned subtraction, which wraps around. */
  function TickSub(a: Tick, b: Tick): (r: Tick)
    ensures b <= a ==> r == a - b
    ensures a < b ==> r == a - b + TICK_MODULUS
  {
    (a - b) % TICK_MODULUS
  }
}

=== FILE: interpolation.dfy ===
/** The interpolation-delay controller: an integer buffering delay in ticks, moved step by
    step between two ping-derived targets (`UpdateCurrentInterpolation`,
    `UpdatePingInterpolation`, `SetTargetSmoothing`). */
module Interpolation {
  import opened Settings

  /** The last round-trip time seen, in milliseconds. Before the first measurement the
      stored value is the most negative long, so the first measurement always retargets. */
  datatype LastPing = NeverMeasured | Measured(ms: nat)

  /** The delay state: the current delay and its two targets, in ticks. */
  datatype Delay = Delay(current: int, target: nat, targetCollision: nat, lastPing: LastPing)

  /** The state of a fresh smoother: a delay of two ticks and targets not yet computed. */
  const INITIAL_DELAY: Delay := Delay(2, 0, 0, NeverMeasured)

  /** Round-trip changes up to this many milliseconds are treated as noise. */
  const PING_CHANGE_THRESHOLD: nat := 25

  /** The least integer not below `x`. */
  function Ceiling(x: real): (n: int)
    ensures n as real >= x
    ensures (n - 1) as real < x
  {
    if x.Floor as real == x then x.Floor else x.Floor + 1
  }

  /** Time-to-ticks conversion rounding up: the fewest ticks that cover `time` seconds. */
  function TimeToTicksRoundUp(time: real, tickDelta: real): (n: nat)
    requires time >= 0.0 && tickDelta > 0.0
    ensures n as real * tickDelta >= time
    ensures n == 0 || (n - 1) as real * tickDelta < time
  {
    CeilingCoversTime(time, tickDelta);
    Ceiling(time / tickDelta)
  }

  /** The ceiling of `time / tickDelta` ticks is the fewest that cover `time`. */
  lemma CeilingCoversTime(time: real, tickDelta: real)
    requires time >= 0.0 && tickDelta > 0.0
    ensures var n := Ceiling(time / tickDelta);
            && n >= 0
            && n as real * tickDelta >= time
            && (n == 0 || (n - 1) as real * tickDelta < time)
  {
    var q := time / tickDelta;
    assert q * tickDelta == time;
    var n := Ceiling(q);
    ScaleAtLeast(q, n as real, tickDelta, time);
    ScaleBelow((n - 1) as real, q, tickDelta, time);
  }

  /** Scaling by a positive factor keeps `<=`. */
  lemma MultiplyMonotone(a: real, b: real, c: real)
    requires a <= b && c >= 0.0
    ensures a * c <= b * c
  {
  }

  lemma ScaleAtLeast(q: real, b: real, c: real, t: real)
    requires q * c == t && q <= b && c > 0.0
    ensures b * c >= t
  {
    MultiplyMonotone(q, b, c);
  }

  lemma ScaleBelow(a: real, q: real, c: real, t: real)
    requires q * c == t && a < q && c > 0.0
    ensures a * c < t
  {
    MultiplyStrict(a, q, c);
  }

  lemma MultiplyStrict(a: real, b: real, c: real)
    requires a < b && c > 0.0
    ensures a * c < b * c
  {
  }

  /** Seconds to buffer: `percent` of a round trip of `pingMs` milliseconds. */
  function BufferTime(pingMs: nat, percent: real): (t: real)
    requires percent >= 0.0
    ensures t >= 0.0
  {
    ScaleMonotone(pingMs as real / 1000.0, 0.0, percent);
    pingMs as real / 1000.0 * percent
  }

  /** The delay in ticks that buffers `percent` of a round trip of `pingMs` milliseconds. */
  function BufferTicks(pingMs: nat, percent: real, tickDelta: real): (n: nat)
    requires percent >= 0.0 && tickDelta > 0.0
    ensures n as real * tickDelta >= BufferTime(pingMs, percent)
    ensures n == 0 || (n - 1) as real * tickDelta < BufferTime(pingMs, percent)
  {
    TimeToTicksRoundUp(BufferTime(pingMs, percent), tickDelta)
  }

  /** `SetTargetSmoothing`: recompute both targets from the round trip, each the fewest ticks
      covering its fraction of the round trip; when asked, also jump the current delay to the
      target that applies. */
  function SetTargetSmoothing(d: Delay, pingMs: nat, data: SmoothingData, setImmediately: bool, colliding: bool): (r: Delay)
    requires data.Valid()
    ensures r.target as real * data.tickDelta >= BufferTime(pingMs, data.interpolationPercent)
    ensures r.target == 0 || (r.target - 1) as real * data.tickDelta < BufferTime(pingMs, data.interpolationPercent)
    ensures r.targetCollision as real * data.tickDelta >= BufferTime(pingMs, data.collisionInterpolationPercent)
    ensures r.targetCollision == 0
            || (r.targetCollision - 1) as real * data.tickDelta < BufferTime(pingMs, data.collisionInterpolationPercent)
    ensures r.current == (if !setImmediately then d.current else if colliding then r.targetCollision else r.target)
    ensures r.lastPing == d.lastPing
  {
    var target := BufferTicks(pingMs, data.interpolationPercent, data.tickDelta);
    var targetCollision := BufferTicks(pingMs, data.collisionInterpolationPercent, data.tickDelta);
    var current := if !setImmediately then d.current else if colliding then targetCollision else target;
    Delay(current, target, targetCollision, d.lastPing)
  }

  /** True when the round trip has moved far enough from the last one to retarget. */
  predicate PingChanged(last: LastPing, pingMs: nat) {
    match last
    case NeverMeasured => true
    case Measured(ms) => (if pingMs >= ms then pingMs - ms else ms - pingMs) > PING_CHANGE_THRESHOLD
  }

  /** `UpdatePingInterpolation`: always remember the new round trip; retarget (without moving
      the current delay) only when it moved by more than the threshold. */
  function UpdatePingInterpolation(d: Delay, pingMs: nat, data: SmoothingData): (r: Delay)
    requires data.Valid()
    ensures r.lastPing == Measured(pingMs)
    ensures r.current == d.current
    ensures !PingChanged(d.lastPing, pingMs) ==> r.target == d.target && r.targetCollision == d.targetCollision
    ensures PingChanged(d.lastPing, pingMs) ==>
              r.(lastPing := d.lastPing) == SetTargetSmoothing(d, pingMs, data, false, false)
  {
    var retargeted := if PingChanged(d.lastPing, pingMs) then SetTargetSmoothing(d, pingMs, data, false, false) else d;
    retargeted.(lastPing := Measured(pingMs))
  }

  /** `Mathf.Clamp` as written: below the minimum gives the minimum, otherwise above the
      maximum gives the maximum. */
  function Clamp(value: int, min: int, max: int): (r: int)
    ensures min <= max ==> min <= r <= max
    ensures min <= value <= max ==> r == value
    ensures r == value || r == min || r == max
    // the minimum is tested first, so with inverted bounds a low value still goes to the minimum
    ensures value < min ==> r == min
    ensures min <= value && max < value ==> r == max
  {
    if value < min then min else if value > max then max else value
  }

  /** `UpdateCurrentInterpolation`: step the delay down when colliding with the local client,
      up otherwise, then clamp it between the collision target and the normal target. */
  function UpdateCurrentInterpolation(d: Delay, colliding: bool, data: SmoothingData): (r: Delay)
    ensures r.target == d.target && r.targetCollision == d.targetCollision && r.lastPing == d.lastPing
    // with ordered targets the delay always lands inside them
    ensures d.targetCollision <= d.target ==> d.targetCollision <= r.current <= d.target
    // from inside the range it moves only in the direction of the collision state, by at most one step
    ensures d.targetCollision <= d.current <= d.target && colliding ==>
              d.current - data.interpolationDecreaseStep <= r.current <= d.current
    ensures d.targetCollision <= d.current <= d.target && !colliding ==>
              d.current <= r.current <= d.current + data.interpolationIncreaseStep
    // a full step is taken whenever it stays inside the targets; otherwise it saturates
    ensures colliding && d.targetCollision <= d.current - data.interpolationDecreaseStep <= d.target ==>
              r.current == d.current - data.interpolationDecreaseStep
    ensures !colliding && d.targetCollision <= d.current + data.interpolationIncreaseStep <= d.target ==>
              r.current == d.current + data.interpolationIncreaseStep
    ensures colliding && d.current - data.interpolationDecreaseStep < d.targetCollision ==>
              r.current == d.targetCollision
    ensures !colliding && d.targetCollision <= d.current + data.interpolationIncreaseStep
                       && d.target < d.current + data.interpolationIncreaseStep ==>
              r.current == d.target
    // a step past the far target is pulled back onto it
    ensures colliding && d.targetCollision <= d.current - data.interpolationDecreaseStep
                      && d.target < d.current - data.interpolationDecreaseStep ==>
              r.current == d.target
    ensures !colliding && d.current + data.interpolationIncreaseStep < d.targetCollision ==>
              r.current == d.targetCollision
  {
    var stepped := if colliding then d.current - data.interpolationDecreaseStep
                   else d.current + data.interpolationIncreaseStep;
    d.(current := Clamp(stepped, d.targetCollision, d.target))
  }

  /** The clamp is one-sided: with the collision target above the normal target, a delay
      below both is raised past the normal target. */
  lemma ClampExceedsInvertedRange(d: Delay, data: SmoothingData)
    requires d.target < d.targetCollision
    requires d.current + data.interpolationIncreaseStep < d.targetCollision
    ensures UpdateCurrentInterpolation(d, false, data).current > d.target
  {
  }

  /** Rounding up is monotone: more time never needs fewer ticks. */
  lemma RoundUpMonotone(t1: real, t2: real, tickDelta: real)
    requires 0.0 <= t1 <= t2 && tickDelta > 0.0
    ensures TimeToTicksRoundUp(t1, tickDelta) <= TimeToTicksRoundUp(t2, tickDelta)
  {
    DivideMonotone(t1, t2, tickDelta);
    CeilingMonotone(t1 / tickDelta, t2 / tickDelta);
  }

  lemma CeilingMonotone(x: real, y: real)
    requires x <= y
    ensures Ceiling(x) <= Ceiling(y)
  {
  }

  lemma DivideMonotone(a: real, b: real, c: real)
    requires a <= b && c > 0.0
    ensures a / c <= b / c
  {
  }

  /** A larger buffer fraction never gives a smaller delay. */
  lemma BufferTicksMonotone(pingMs: nat, p: real, q: real, tickDelta: real)
    requires 0.0 <= p <= q && tickDelta > 0.0
    ensures BufferTicks(pingMs, p, tickDelta) <= BufferTicks(pingMs, q, tickDelta)
  {
    ScaleMonotone(pingMs as real / 1000.0, p, q);
    RoundUpMonotone(BufferTime(pingMs, p), BufferTime(pingMs, q), tickDelta);
  }

  lemma ScaleMonotone(c: real, a: real, b: real)
    requires c >= 0.0 && 0.0 <= a <= b
    ensures 0.0 <= c * a <= c * b
  {
  }

  /** With the collision fraction at most the normal fraction, retargeting keeps the two
      targets ordered, which is what makes the clamp safe. */
  lemma RetargetKeepsTargetsOrdered(d: Delay, pingMs: nat, data: SmoothingData, setImmediately: bool, colliding: bool)
    requires data.Valid() && data.CollisionBufferShorter()
    ensures var r := SetTargetSmoothing(d, pingMs, data, setImmediately, colliding);
            r.targetCollision <= r.target
  {
    BufferTicksMonotone(pingMs, data.collisionInterpolationPercent, data.interpolationPercent, data.tickDelta);
  }

  /** The ping gate is idempotent: the same round trip seen twice retargets at most once. */
  lemma PingGateIdempotent(d: Delay, pingMs: nat, data: SmoothingData)
    requires data.Valid()
    ensures var once := UpdatePingInterpolation(d, pingMs, data);
            UpdatePingInterpolation(once, pingMs, data) == once
  {
  }

  /** A round trip of 100 ms, buffered in full at 20 ms ticks, is a delay of 5 ticks. */
  lemma HundredMillisecondsIsFiveTicks()
    ensures BufferTicks(100, 1.0, 0.02) == 5
  {
    var n := BufferTicks(100, 1.0, 0.02);
    assert BufferTime(100, 1.0) == 0.1;
    if n < 5 {
      MultiplyMonotone(n as real, 4.0, 0.02);
    } else if n > 5 {
      MultiplyMonotone(5.0, (n - 1) as real, 0.02);
    }
  }

  /** Repeated steps while colliding. */
  function Fall(d: Delay, data: SmoothingData, steps: nat): Delay
    decreases steps
  {
    if steps == 0 then d else Fall(UpdateCurrentInterpolation(d, true, data), data, steps - 1)
  }

  /** While colliding, the delay descends from anywhere in range to the collision target in
      enough steps, and stays there. */
  lemma {:induction false} FallReachesCollisionTarget(d: Delay, data: SmoothingData, steps: nat)
    requires d.targetCollision <= d.current <= d.target
    requires data.interpolationDecreaseStep > 0
    requires steps * data.interpolationDecreaseStep >= d.current - d.targetCollision
    ensures Fall(d, data, steps).current == d.targetCollision
    decreases steps
  {
    if steps > 0 {
      var next := UpdateCurrentInterpolation(d, true, data);
      assert (steps - 1) * data.interpolationDecreaseStep >= next.current - d.targetCollision;
      FallReachesCollisionTarget(next, data, steps - 1);
    }
  }

  /** Repeated steps while not colliding. */
  function Rise(d: Delay, data: SmoothingData, steps: nat): Delay
    decreases steps
  {
    if steps == 0 then d else Rise(UpdateCurrentInterpolation(d, false, data), data, steps - 1)
  }

  /** Free of collisions, the delay climbs from anywhere in range to the normal target in
      enough steps, and stays there. */
  lemma {:induction false} RiseReachesTarget(d: Delay, data: SmoothingData, steps: nat)
    requires d.targetCollision <= d.current <= d.target
    requires data.interpolationIncreaseStep > 0
    requires steps * data.interpolationIncreaseStep >= d.target - d.current
    ensures Rise(d, data, steps).current == d.target
    decreases steps
  {
    if steps > 0 {
      var next := UpdateCurrentInterpolation(d, false, data);
      assert (steps - 1) * data.interpolationIncreaseStep >= d.target - next.current;
      RiseReachesTarget(next, data, steps - 1);
    }
  }
}

=== FILE: motion.dfy ===
/** Frame-step control (`MoveToTarget`): how far the graphical object moves each rendered
    frame, how the current goal's remaining time runs down, and when the next goal takes over. */
module Motion {
  import opened Transforms
  import opened Settings
  import opened Goals
  import opened GoalQueue

  /** Extra speed while more goals are queued than the delay asks for. */
  const OVERFLOW_MULTIPLIER: real := 0.1
  /** Slow-down per missing goal while fewer are queued than the delay asks for. */
  const UNDERFLOW_MULTIPLIER: real := 0.02
  /** The largest slow-down. */
  const MAXIMUM_SLOWDOWN: real := 0.9

  function Min(a: real, b: real): real {
    if a <= b then a else b
  }

  /** The speed multiplier for `queueCount` pending goals against a delay of
      `currentInterpolation` ticks: faster when the buffer is over-full, slower (down to a
      floor) when it runs short, and exactly 1 when it matches. */
  function SpeedMultiplier(queueCount: nat, currentInterpolation: int): (m: real)
    ensures 1.0 - MAXIMUM_SLOWDOWN <= m <= 1.0 + OVERFLOW_MULTIPLIER
    // an over-full buffer speeds up by the fixed overflow step
    ensures queueCount > currentInterpolation ==> m == 1.0 + OVERFLOW_MULTIPLIER
    // a short buffer slows by the underflow step per missing goal, down to the largest slow-down
    ensures queueCount < currentInterpolation ==>
              m == 1.0 - Min(UNDERFLOW_MULTIPLIER * (currentInterpolation - queueCount) as real, MAXIMUM_SLOWDOWN)
    ensures m > 1.0 <==> queueCount > currentInterpolation
    ensures m == 1.0 <==> queueCount == currentInterpolation
    ensures m < 1.0 <==> queueCount < currentInterpolation
  {
    var countOverInterpolation := queueCount - currentInterpolation;
    if countOverInterpolation > 0 then
      1.0 + OVERFLOW_MULTIPLIER
    else if countOverInterpolation < 0 then
      var value := UNDERFLOW_MULTIPLIER * (-countOverInterpolation) as real;
      1.0 - (if value > MAXIMUM_SLOWDOWN then MAXIMUM_SLOWDOWN else value)
    else
      1.0
  }

  /** More queued goals never slow the object down. */
  lemma MultiplierMonotone(q1: nat, q2: nat, currentInterpolation: int)
    requires q1 <= q2
    ensures SpeedMultiplier(q1, currentInterpolation) <= SpeedMultiplier(q2, currentInterpolation)
  {
  }

  /** Every missing goal up to 45 slows by 0.02; from 45 missing goals on the multiplier
      stays at its floor of 0.1. */
  lemma MultiplierUnderflow(queueCount: nat, currentInterpolation: int)
    requires queueCount < currentInterpolation
    ensures currentInterpolation - queueCount <= 45 ==>
              SpeedMultiplier(queueCount, currentInterpolation) == 1.0 - 0.02 * (currentInterpolation - queueCount) as real
    ensures currentInterpolation - queueCount >= 45 ==> SpeedMultiplier(queueCount, currentInterpolation) == 0.1
  {
  }

  /** Eight queued goals against a delay of five speed up to 1.1; two against five slow to 0.94. */
  lemma MultiplierExamples()
    ensures SpeedMultiplier(8, 5) == 1.1
    ensures SpeedMultiplier(2, 5) == 0.94
  {
  }

  /** `GraphicalObjectMatches`: the graphical object sits on `goal`; an axis that is not
      smoothed always counts as matching. */
  predicate GraphicalObjectMatches(graphical: TransformProperties, goal: TransformProperties, data: SmoothingData) {
    && (!data.smoothPosition || graphical.position == goal.position)
    && (!data.smoothRotation || graphical.rotation == goal.rotation)
  }

  /** One frame of movement towards `goal` on each smoothed axis: snap for the instant rate,
      move by at most rate x delta (position also scaled by the multiplier) for a positive rate,
      and stay put otherwise. */
  function MoveAxes(graphical: TransformProperties, goal: GoalData, data: SmoothingData, geo: Geometry,
                    delta: real, multiplier: real): (r: TransformProperties)
    ensures (!data.smoothPosition || (goal.moveRates.position != INSTANT && goal.moveRates.position <= 0.0))
            ==> r.position == graphical.position
    ensures (!data.smoothRotation || (goal.moveRates.rotation != INSTANT && goal.moveRates.rotation <= 0.0))
            ==> r.rotation == graphical.rotation
    ensures data.smoothPosition && goal.moveRates.position == INSTANT ==> r.position == goal.transform.position
    ensures data.smoothRotation && goal.moveRates.rotation == INSTANT ==> r.rotation == goal.transform.rotation
    // a positive rate moves towards the goal: position scaled by the multiplier, rotation not
    ensures data.smoothPosition && goal.moveRates.position > 0.0 ==>
              r.position == geo.moveTowards(graphical.position, goal.transform.position, goal.moveRates.position * delta * multiplier)
    ensures data.smoothRotation && goal.moveRates.rotation > 0.0 ==>
              r.rotation == geo.rotateTowards(graphical.rotation, goal.transform.rotation, goal.moveRates.rotation * delta)
  {
    var position :=
      if !data.smoothPosition then graphical.position
      else if goal.moveRates.position == INSTANT then goal.transform.position
      else if goal.moveRates.position > 0.0 then geo.moveTowards(graphical.position, goal.transform.position, goal.moveRates.position * delta * multiplier)
      else graphical.position;
    var rotation :=
      if !data.smoothRotation then graphical.rotation
      else if goal.moveRates.rotation == INSTANT then goal.transform.rotation
      else if goal.moveRates.rotation > 0.0 then geo.rotateTowards(graphical.rotation, goal.transform.rotation, goal.moveRates.rotation * delta)
      else graphical.rotation;
    TransformProperties(position, rotation)
  }

  /** What a frame works on: the goals and the graphical object's transform. */
  datatype Frame = Frame(buffer: GoalBuffer, graphical: TransformProperties)

  function Abs(x: real): real {
    if x < 0.0 then -x else x
  }

  /** The current goal's remaining time after a frame of `elapsed` seconds: it only runs down
      while positive. */
  function RunDown(timeRemaining: real, elapsed: real): (r: real)
    // time already used up is never touched again
    ensures timeRemaining <= 0.0 ==> r == timeRemaining
    ensures timeRemaining > 0.0 ==> timeRemaining - r == elapsed
  {
    if timeRemaining > 0.0 then timeRemaining - elapsed else timeRemaining
  }

  /** The current goal, activating the next pending one when it is not valid; false when
      there is nothing to work on. */
  function Activate(b: GoalBuffer): (r: (GoalBuffer, bool))
    ensures r.1 <==> b.current.isValid || |b.pending| > 0
    ensures r.1 ==> r.0.current.isValid
    ensures b.current.isValid ==> r.0 == b
    ensures !b.current.isValid ==> r == SetCurrentGoalData(b)
  {
    if b.current.isValid then (b, true) else SetCurrentGoalData(b)
  }

  /** How one pass over the current goal ends: the frame is done, or the goal was used up
      and the next one took over with time still to spend. */
  datatype Pass = Done(frame: Frame) | Carry(frame: Frame, leftOver: real)

  /** One pass over a valid current goal with `delta` seconds: move, run its time down, and
      once it is used up take the next goal, or hold the old one while the graphical object
      has not reached it. */
  function MovePass(f: Frame, currentInterpolation: int, data: SmoothingData, geo: Geometry, delta: real): (p: Pass)
    requires f.buffer.current.isValid
    // at most the head is consumed
    ensures |p.frame.buffer.pending| == |f.buffer.pending| ==>
              && p.frame.buffer.pending == f.buffer.pending
              && p.frame.buffer.current.localTick == f.buffer.current.localTick
              && p.frame.buffer.current.transform == f.buffer.current.transform
    ensures |p.frame.buffer.pending| != |f.buffer.pending| ==>
              && |f.buffer.pending| > 0
              && p.frame.buffer.pending == f.buffer.pending[1..]
              && p.frame.buffer.current.isValid
              && p.frame.buffer.current.localTick == f.buffer.pending[0].localTick
              && p.frame.buffer.current.transform == f.buffer.pending[0].transform
    ensures p.Carry? ==> |p.frame.buffer.pending| < |f.buffer.pending| && p.leftOver > 0.0 && p.frame.buffer.current.isValid
    ensures !p.frame.buffer.current.isValid ==> p.frame.buffer.pending == []
    ensures !data.smoothPosition ==> p.frame.graphical.position == f.graphical.position
    ensures !data.smoothRotation ==> p.frame.graphical.rotation == f.graphical.rotation
    // the graphics move once towards the current goal at the queue's speed multiplier
    ensures p.frame.graphical == MoveAxes(f.graphical, f.buffer.current, data, geo, delta,
                                          SpeedMultiplier(|f.buffer.pending|, currentInterpolation))
    // a goal that is not consumed has its time run down by delta x multiplier
    ensures |p.frame.buffer.pending| == |f.buffer.pending| ==>
              p.frame.buffer.current.moveRates.timeRemaining ==
                RunDown(f.buffer.current.moveRates.timeRemaining,
                        delta * SpeedMultiplier(|f.buffer.pending|, currentInterpolation))
    // with goals pending, the head is taken exactly when the time runs down to zero or below,
    // and only a strict overrun is carried, by its magnitude
    ensures var t := RunDown(f.buffer.current.moveRates.timeRemaining,
                             delta * SpeedMultiplier(|f.buffer.pending|, currentInterpolation));
            |f.buffer.pending| > 0 ==> (|p.frame.buffer.pending| < |f.buffer.pending| <==> t <= 0.0)
    ensures var t := RunDown(f.buffer.current.moveRates.timeRemaining,
                             delta * SpeedMultiplier(|f.buffer.pending|, currentInterpolation));
            p.Carry? <==> |f.buffer.pending| > 0 && t < 0.0
    ensures var t := RunDown(f.buffer.current.moveRates.timeRemaining,
                             delta * SpeedMultiplier(|f.buffer.pending|, currentInterpolation));
            p.Carry? ==> p.leftOver == -t
  {
    var b := f.buffer;
    var multiplier := SpeedMultiplier(|b.pending|, currentInterpolation);
    var goal := b.current;
    var graphical := MoveAxes(f.graphical, goal, data, geo, delta, multiplier);
    var timeRemaining := RunDown(goal.moveRates.timeRemaining, delta * multiplier);
    var running := b.(current := goal.(moveRates := goal.moveRates.(timeRemaining := timeRemaining)));
    if timeRemaining > 0.0 then
      Done(Frame(running, graphical))
    else
      var leftOver := Abs(timeRemaining);
      var (next, advanced) := SetCurrentGoalData(running);
      if advanced then
        if leftOver > 0.0 then Carry(Frame(next, graphical), leftOver) else Done(Frame(next, graphical))
      else
        var held := next.current.(isValid := !GraphicalObjectMatches(graphical, goal.transform, data));
        Done(Frame(next.(current := held), graphical))
  }

  /** Passes over the current goal until one ends the frame: each goal used up within the
      frame hands its leftover time to the next. */
  function Finish(f: Frame, currentInterpolation: int, data: SmoothingData, geo: Geometry, delta: real): Frame
    requires f.buffer.current.isValid
    decreases |f.buffer.pending|
  {
    match MovePass(f, currentInterpolation, data, geo, delta)
    case Done(r) => r
    case Carry(p, leftOver) => Finish(p, currentInterpolation, data, geo, leftOver)
  }

  /** `MoveToTarget`: one frame of `delta` seconds. Without a valid goal, take the next one or
      hold. Move the graphical object, run the goal's time down by delta x multiplier, and once
      it is used up take the next goal and spend the leftover time on it, as often as goals
      run out within the frame. With nothing left to take, the goal stays live only while the
      graphical object is not on it yet. */
  function MoveToTarget(f: Frame, currentInterpolation: int, data: SmoothingData, geo: Geometry, delta: real): (r: Frame)
    // with no goal to work on nothing happens
    ensures !f.buffer.current.isValid && f.buffer.pending == [] ==> r == f
    // the smoother never ends a frame idle while goals are pending
    ensures !r.buffer.current.isValid ==> r.buffer.pending == []
    // axes that are not smoothed are never moved
    ensures !data.smoothPosition ==> r.graphical.position == f.graphical.position
    ensures !data.smoothRotation ==> r.graphical.rotation == f.graphical.rotation
  {
    var (b, active) := Activate(f.buffer);
    if !active then Frame(b, f.graphical)
    else
      FinishKeepsInvariants(Frame(b, f.graphical), currentInterpolation, data, geo, delta);
      Finish(Frame(b, f.graphical), currentInterpolation, data, geo, delta)
  }

  /** Passes only ever consume goals from the front, and the goal last consumed is the one
      left current; axes that are not smoothed are never moved. */
  lemma {:induction false} FinishConsumesFromFront(f: Frame, currentInterpolation: int, data: SmoothingData, geo: Geometry, delta: real)
    requires f.buffer.current.isValid
    ensures var r := Finish(f, currentInterpolation, data, geo, delta);
            && |r.buffer.pending| <= |f.buffer.pending|
            && r.buffer.pending == f.buffer.pending[|f.buffer.pending| - |r.buffer.pending|..]
    decreases |f.buffer.pending|
  {
    var pass := MovePass(f, currentInterpolation, data, geo, delta);
    if pass.Carry? {
      assert Finish(f, currentInterpolation, data, geo, delta) == Finish(pass.frame, currentInterpolation, data, geo, pass.leftOver);
      FinishConsumesFromFront(pass.frame, currentInterpolation, data, geo, pass.leftOver);
      var r := Finish(pass.frame, currentInterpolation, data, geo, pass.leftOver);
      SuffixOfTail(f.buffer.pending, pass.frame.buffer.pending, r.buffer.pending);
    } else {
      assert Finish(f, currentInterpolation, data, geo, delta) == pass.frame;
      PassConsumesFromFront(f.buffer.pending, pass.frame.buffer.pending);
    }
  }

  /** What a pass leaves of the queue (all of it, or its tail) is a suffix of it. */
  lemma PassConsumesFromFront<T>(s: seq<T>, r: seq<T>)
    requires r == s || (|s| > 0 && r == s[1..])
    ensures |r| <= |s| && r == s[|s| - |r|..]
  {
  }

  /** A suffix of a sequence's tail is a suffix of the sequence. */
  lemma SuffixOfTail<T>(s: seq<T>, tail: seq<T>, r: seq<T>)
    requires |s| > 0 && tail == s[1..]
    requires |r| <= |tail| && r == tail[|tail| - |r|..]
    ensures r == s[|s| - |r|..]
    ensures |r| < |tail| ==> tail[|tail| - |r| - 1] == s[|s| - |r| - 1]
  {
  }

  /** The goal left current is the last one consumed, or the same goal when none was. */
  lemma {:induction false} FinishTakesLastConsumed(f: Frame, currentInterpolation: int, data: SmoothingData, geo: Geometry, delta: real)
    requires f.buffer.current.isValid
    ensures var r := Finish(f, currentInterpolation, data, geo, delta);
            |r.buffer.pending| <= |f.buffer.pending| &&
            if |r.buffer.pending| == |f.buffer.pending| then
              r.buffer.current.localTick == f.buffer.current.localTick && r.buffer.current.transform == f.buffer.current.transform
            else
              var taken := f.buffer.pending[|f.buffer.pending| - |r.buffer.pending| - 1];
              r.buffer.current.localTick == taken.localTick && r.buffer.current.transform == taken.transform
    decreases |f.buffer.pending|
  {
    match MovePass(f, currentInterpolation, data, geo, delta)
    case Done(r) =>
    case Carry(p, leftOver) =>
      FinishConsumesFromFront(p, currentInterpolation, data, geo, leftOver);
      FinishTakesLastConsumed(p, currentInterpolation, data, geo, leftOver);
      var r := Finish(p, currentInterpolation, data, geo, leftOver);
      SuffixOfTail(f.buffer.pending, p.buffer.pending, r.buffer.pending);
  }

  /** A frame never ends idle while goals are pending, and never moves an axis that is not
      smoothed. */
  lemma {:induction false} FinishKeepsInvariants(f: Frame, currentInterpolation: int, data: SmoothingData, geo: Geometry, delta: real)
    requires f.buffer.current.isValid
    ensures var r := Finish(f, currentInterpolation, data, geo, delta);
            && (!r.buffer.current.isValid ==> r.buffer.pending == [])
            && (!data.smoothPosition ==> r.graphical.position == f.graphical.position)
            && (!data.smoothRotation ==> r.graphical.rotation == f.graphical.rotation)
    decreases |f.buffer.pending|
  {
    match MovePass(f, currentInterpolation, data, geo, delta)
    case Done(r) =>
    case Carry(p, leftOver) =>
      FinishKeepsInvariants(p, currentInterpolation, data, geo, leftOver);
  }
  /** Over a whole frame, goals are consumed only from the front of the queue. */
  lemma MoveToTargetConsumesFromFront(f: Frame, currentInterpolation: int, data: SmoothingData, geo: Geometry, delta: real)
    ensures var r := MoveToTarget(f, currentInterpolation, data, geo, delta);
            && |r.buffer.pending| <= |f.buffer.pending|
            && r.buffer.pending == f.buffer.pending[|f.buffer.pending| - |r.buffer.pending|..]
  {
    var (b, active) := Activate(f.buffer);
    if active {
      var g := Frame(b, f.graphical);
      FinishConsumesFromFront(g, currentInterpolation, data, geo, delta);
      if !f.buffer.current.isValid {
        var r := Finish(g, currentInterpolation, data, geo, delta);
        SuffixOfTail(f.buffer.pending, b.pending, r.buffer.pending);
      }
    }
  }

  /** Over a whole frame, the goal last consumed is the one left current, and a goal that
      was current and consumed nothing behind it is still the one worked on. */
  lemma MoveToTargetTakesLastConsumed(f: Frame, currentInterpolation: int, data: SmoothingData, geo: Geometry, delta: real)
    ensures var r := MoveToTarget(f, currentInterpolation, data, geo, delta);
            && (|r.buffer.pending| < |f.buffer.pending| ==>
                  var taken := f.buffer.pending[|f.buffer.pending| - |r.buffer.pending| - 1];
                  r.buffer.current.localTick == taken.localTick && r.buffer.current.transform == taken.transform)
            && (|r.buffer.pending| == |f.buffer.pending| && f.buffer.current.isValid ==>
                  r.buffer.current.localTick == f.buffer.current.localTick && r.buffer.current.transform == f.buffer.current.transform)
  {
    var (b, active) := Activate(f.buffer);
    if active {
      var g := Frame(b, f.graphical);
      FinishTakesLastConsumed(g, currentInterpolation, data, geo, delta);
      if !f.buffer.current.isValid {
        var r := Finish(g, currentInterpolation, data, geo, delta);
        if |r.buffer.pending| < |b.pending| {
          FinishConsumesFromFront(g, currentInterpolation, data, geo, delta);
          SuffixOfTail(f.buffer.pending, b.pending, r.buffer.pending);
        }
      }
    }
  }

  /** While time remains after the frame, the goal stays current, its time runs down by
      delta x multiplier, nothing is consumed, and the graphics make one move towards it at
      that multiplier. */
  lemma FrameRunsDown(f: Frame, currentInterpolation: int, data: SmoothingData, geo: Geometry, delta: real)
    requires f.buffer.current.isValid
    requires var elapsed := delta * SpeedMultiplier(|f.buffer.pending|, currentInterpolation);
             f.buffer.current.moveRates.timeRemaining > 0.0 && f.buffer.current.moveRates.timeRemaining - elapsed > 0.0
    ensures var elapsed := delta * SpeedMultiplier(|f.buffer.pending|, currentInterpolation);
            var goal := f.buffer.current;
            var r := MoveToTarget(f, currentInterpolation, data, geo, delta);
            && r.buffer.pending == f.buffer.pending
            && r.buffer.current == goal.(moveRates := goal.moveRates.(timeRemaining := goal.moveRates.timeRemaining - elapsed))
            && r.graphical == MoveAxes(f.graphical, goal, data, geo, delta,
                                       SpeedMultiplier(|f.buffer.pending|, currentInterpolation))
  {
  }

  /** A goal whose time is used up with nothing queued behind it stays live exactly when the
      graphical object has not reached it; it keeps its tick and target. */
  lemma FrameHoldsWhenDry(f: Frame, currentInterpolation: int, data: SmoothingData, geo: Geometry, delta: real)
    requires f.buffer.current.isValid && f.buffer.pending == []
    requires RunDown(f.buffer.current.moveRates.timeRemaining, delta * SpeedMultiplier(0, currentInterpolation)) <= 0.0
    ensures var r := MoveToTarget(f, currentInterpolation, data, geo, delta);
            && r.buffer.pending == []
            && r.buffer.current.localTick == f.buffer.current.localTick
            && r.buffer.current.transform == f.buffer.current.transform
            && (r.buffer.current.isValid <==> !GraphicalObjectMatches(r.graphical, f.buffer.current.transform, data))
  {
  }

  /** A pass that overruns a goal with more queued carries the overrun to the next goal. */
  lemma PassCarriesOverrun(f: Frame, currentInterpolation: int, data: SmoothingData, geo: Geometry, delta: real)
    requires f.buffer.current.isValid && |f.buffer.pending| > 0
    requires RunDown(f.buffer.current.moveRates.timeRemaining, delta * SpeedMultiplier(|f.buffer.pending|, currentInterpolation)) < 0.0
    ensures var multiplier := SpeedMultiplier(|f.buffer.pending|, currentInterpolation);
            var overrun := -RunDown(f.buffer.current.moveRates.timeRemaining, delta * multiplier);
            var moved := MoveAxes(f.graphical, f.buffer.current, data, geo, delta, multiplier);
            var next := GoalBuffer(CopyGoal(f.buffer.pending[0]), f.buffer.pending[1..]);
            MovePass(f, currentInterpolation, data, geo, delta) == Carry(Frame(next, moved), overrun)
  {
  }

  /** A goal that overruns its time hands the next goal the overrun, so no frame time is lost. */
  lemma FrameCarriesLeftover(f: Frame, currentInterpolation: int, data: SmoothingData, geo: Geometry, delta: real)
    requires f.buffer.current.isValid && |f.buffer.pending| > 0
    requires RunDown(f.buffer.current.moveRates.timeRemaining, delta * SpeedMultiplier(|f.buffer.pending|, currentInterpolation)) < 0.0
    ensures var multiplier := SpeedMultiplier(|f.buffer.pending|, currentInterpolation);
            var overrun := -RunDown(f.buffer.current.moveRates.timeRemaining, delta * multiplier);
            var moved := MoveAxes(f.graphical, f.buffer.current, data, geo, delta, multiplier);
            var next := GoalBuffer(CopyGoal(f.buffer.pending[0]), f.buffer.pending[1..]);
            MoveToTarget(f, currentInterpolation, data, geo, delta)
              == MoveToTarget(Frame(next, moved), currentInterpolation, data, geo, overrun)
  {
    PassCarriesOverrun(f, currentInterpolation, data, geo, delta);
  }

  /** A snapped (teleport) goal holds the instant sentinel -1 as its time remaining, so
      finishing it hands one whole second of movement to the goals behind it. */
  lemma InstantGoalCarriesOneSecond(current: GoalData, next: GoalData, graphical: TransformProperties,
                                    currentInterpolation: int, data: SmoothingData, geo: Geometry, delta: real)
    requires current.isValid && current.moveRates.timeRemaining == INSTANT
    ensures var f := Frame(GoalBuffer(current, [next]), graphical);
            var multiplier := SpeedMultiplier(1, currentInterpolation);
            var moved := MoveAxes(graphical, current, data, geo, delta, multiplier);
            MoveToTarget(f, currentInterpolation, data, geo, delta)
              == MoveToTarget(Frame(GoalBuffer(CopyGoal(next), []), moved), currentInterpolation, data, geo, 1.0)
  {
  }

  /** A goal with 0.05 s to go, at 0.02 s frames and multiplier 1, is done after the third
      frame; the 0.01 s overrun is spent on the next goal (at the multiplier for the now
      shorter queue). */
  lemma ThreeFramesThenCarry(current: GoalData, next: GoalData, graphical: TransformProperties, data: SmoothingData, geo: Geometry)
    requires current.isValid && current.moveRates.timeRemaining == 0.05
    requires next.moveRates.timeRemaining == 0.04
    ensures var f0 := Frame(GoalBuffer(current, [next]), graphical);
            var f1 := MoveToTarget(f0, 1, data, geo, 0.02);
            var f2 := MoveToTarget(f1, 1, data, geo, 0.02);
            var f3 := MoveToTarget(f2, 1, data, geo, 0.02);
            && f2.buffer.current.localTick == current.localTick
            && f2.buffer.current.moveRates.timeRemaining == 0.01
            && f3.buffer.pending == []
            && f3.buffer.current.localTick == next.localTick
            && f3.buffer.current.moveRates.timeRemaining == 0.04 - 0.01 * 0.98
  {
    var f0 := Frame(GoalBuffer(current, [next]), graphical);
    FrameRunsDown(f0, 1, data, geo, 0.02);
    var f1 := MoveToTarget(f0, 1, data, geo, 0.02);
    FrameRunsDown(f1, 1, data, geo, 0.02);
    var f2 := MoveToTarget(f1, 1, data, geo, 0.02);
    FrameCarriesLeftover(f2, 1, data, geo, 0.02);
  }
}

=== FILE: rates.dfy ===
/** Turning two consecutive goals into movement rates (`SetCalculatedRates`, `SetInstantRates`). */
module Rates {
  import opened Transforms
  import opened Settings
  import opened Goals

  /** The rates `SetInstantRates` writes: snap both axes, over one tick, with the sentinel as
      the time remaining. */
  const INSTANT_RATES: RateData := RateData(INSTANT, INSTANT, 1, INSTANT)

  /** The channel a transform update arrived on. */
  datatype Channel = Reliable | Unreliable

  /** Simulated seconds covered by a number of ticks. */
  function TicksToTime(ticks: Tick, tickDelta: real): real {
    ticks as real * tickDelta
  }

  /** The tick span between two goals. A previous tick of 0 (settled) counts as the tick just
      before the next one; otherwise the unsigned difference, which wraps around. */
  function ElapsedTicks(prevTick: Tick, nextTick: Tick): (r: Tick)
    ensures prevTick == 0 ==> r == 1
    ensures 0 < prevTick <= nextTick ==> r == nextTick - prevTick
    ensures prevTick != 0 ==> (r == 0 <==> prevTick == nextTick)
    ensures 0 < prevTick && nextTick < prevTick ==> r == nextTick - prevTick + TICK_MODULUS
  {
    var lastTick := if prevTick == 0 then TickSub(nextTick, 1) else prevTick;
    TickSub(nextTick, lastTick)
  }

  /** A rate that covers `amount` in `time` seconds: a positive speed that does so exactly, or
      the instant sentinel when there is nothing to cover. */
  ghost predicate Covers(rate: real, amount: real, time: real) {
    if amount == 0.0 then rate == INSTANT else rate > 0.0 && rate * time == amount
  }

  /** `amount / time`, with a computed zero turned into the instant sentinel. A zero `time`
      divides by zero in floating point: a positive amount gives infinity, which the frame
      step treats like the instant sentinel, and zero gives NaN, which is modelled as a zero
      rate. */
  function RateFor(amount: Length, time: real): (r: real)
    requires time >= 0.0
    ensures time > 0.0 ==> Covers(r, amount, time)
    ensures time == 0.0 ==> (r == INSTANT <==> amount > 0.0)
    ensures time == 0.0 && amount == 0.0 ==> r == 0.0
    ensures r == INSTANT || r >= 0.0
  {
    if time == 0.0 then (if amount > 0.0 then INSTANT else 0.0)
    else
      var rate := amount / time;
      if rate == 0.0 then INSTANT else rate
  }

  /** True when a position jump is large enough to snap rather than interpolate. */
  predicate Teleports(teleport: Teleport, distance: real) {
    teleport.TeleportAt? && distance >= teleport.threshold
  }

  /** True when a reliable update repeats the previous transform exactly. */
  predicate Settles(prev: GoalData, next: GoalData, channel: Channel) {
    channel == Reliable && prev.transform == next.transform
  }

  /** `SetCalculatedRates`: fill in the rates of `next` for moving from `prev`.
      Only the rates change, except that a settled goal also gets the settled tick 0. */
  function SetCalculatedRates(prev: GoalData, next: GoalData, channel: Channel, data: SmoothingData, geo: Geometry): (r: GoalData)
    requires data.Valid()
    ensures r.isValid == next.isValid && r.transform == next.transform
    // a repeated reliable update keeps the previous rates and is marked settled
    ensures Settles(prev, next, channel) ==> r.moveRates == prev.moveRates && r.localTick == 0
    ensures !Settles(prev, next, channel) ==> r.localTick == next.localTick
    // a teleport snaps in one tick
    ensures !Settles(prev, next, channel) && Teleports(data.teleport, geo.distance(prev.transform.position, next.transform.position))
      ==> r.moveRates == INSTANT_RATES
    // otherwise the rates cover the change in the elapsed time
    ensures !Settles(prev, next, channel) && !Teleports(data.teleport, geo.distance(prev.transform.position, next.transform.position))
      ==> var span := ElapsedTicks(prev.localTick, next.localTick);
          && r.moveRates.tickSpan == span
          && r.moveRates.timeRemaining == span as real * data.tickDelta
          && (span > 0 ==>
               && Covers(r.moveRates.position, geo.distance(prev.transform.position, next.transform.position), r.moveRates.timeRemaining)
               && Covers(r.moveRates.rotation, geo.angle(prev.transform.rotation, next.transform.rotation), r.moveRates.timeRemaining))
  {
    if Settles(prev, next, channel) then
      next.(moveRates := prev.moveRates, localTick := 0)
    else
      var tickDifference := ElapsedTicks(prev.localTick, next.localTick);
      var timePassed := TicksToTime(tickDifference, data.tickDelta);
      var distance := geo.distance(prev.transform.position, next.transform.position);
      if Teleports(data.teleport, distance) then
        next.(moveRates := INSTANT_RATES)
      else
        var positionRate := RateFor(distance, timePassed);
        var rotationRate := RateFor(geo.angle(prev.transform.rotation, next.transform.rotation), timePassed);
        next.(moveRates := RateData(positionRate, rotationRate, tickDifference, timePassed))
  }

  /** Settling is stable: a second identical reliable update on top of a settled goal still
      carries the original rates forward and stays settled. */
  lemma SettledStaysSettled(prev: GoalData, next: GoalData, again: GoalData, data: SmoothingData, geo: Geometry)
    requires data.Valid()
    requires next.transform == prev.transform && again.transform == prev.transform
    ensures var settled := SetCalculatedRates(prev, next, Reliable, data, geo);
            var twice := SetCalculatedRates(settled, again, Reliable, data, geo);
            twice.moveRates == prev.moveRates && twice.localTick == 0
  {
  }

  /** Goals one tick apart (or following a settled goal) are one tick span and one tick
      duration apart, unless the jump teleports. */
  lemma AdjacentTicksSpanOne(prev: GoalData, next: GoalData, data: SmoothingData, geo: Geometry)
    requires data.Valid()
    requires prev.localTick == 0 || prev.localTick + 1 == next.localTick
    ensures var r := SetCalculatedRates(prev, next, Unreliable, data, geo);
            && r.moveRates.tickSpan == 1
            && r.localTick == next.localTick
            && (!Teleports(data.teleport, geo.distance(prev.transform.position, next.transform.position))
                ==> r.moveRates.timeRemaining == data.tickDelta)
  {
  }
}

=== FILE: settings.dfy ===
/** The configuration the smoother is initialised with. */
module Settings {

  /** Whether large position jumps snap instead of being interpolated. `NoTeleport` stands
      for the unset threshold. */
  datatype Teleport = NoTeleport | TeleportAt(threshold: real)

  /** Smoothing options plus the tick duration of the simulation clock. */
  datatype SmoothingData = SmoothingData(
    smoothPosition: bool,
    smoothRotation: bool,
    interpolationPercent: real,
    collisionInterpolationPercent: real,
    interpolationIncreaseStep: nat,
    interpolationDecreaseStep: nat,
    teleport: Teleport,
    tickDelta: real)
  {
    /** A usable configuration: a positive tick duration and non-negative buffer fractions. */
    predicate Valid() {
      && tickDelta > 0.0
      && interpolationPercent >= 0.0
      && collisionInterpolationPercent >= 0.0
    }

    /** The collision delay is meant to be the shorter of the two. */
    predicate CollisionBufferShorter() {
      collisionInterpolationPercent <= interpolationPercent
    }
  }
}

=== FILE: smoother.dfy ===
/** The smoother as the tick loop drives it: the pre-tick, post-tick, post-replay and frame
    hooks (`OnPreTick`, `OnPostTick`, `OnPostReplay`, `Update`), each gated by `CanSmooth`. */
module Smoother {
  import opened Transforms
  import opened Settings
  import opened Goals
  import opened GoalQueue
  import opened Interpolation
  import opened Motion

  /** What the hooks read from the networked object, its time manager and the engine: the
      ownership flags, whether the object currently collides with the local client, the
      round-trip time in milliseconds, the replicate tick and the root transform. */
  datatype Host = Host(isOwner: bool, isServerOnly: bool, collidingWithLocalClient: bool,
                       roundTripTime: nat, replicateTick: Tick, root: TransformProperties)

  /** The smoother's state: the delay controller, the goal queue, the graphical object's
      transform, its value captured at pre-tick, and the root transform and tick of the last
      post-simulation. */
  datatype SmootherState = SmootherState(delay: Delay, buffer: GoalBuffer, graphical: TransformProperties,
                                         graphicalPretick: TransformProperties,
                                         rootPostSimulate: TransformProperties, postSimulateTick: Tick)

  /** A freshly initialized smoother around a graphical object. */
  function Initial(graphical: TransformProperties): SmootherState {
    SmootherState(INITIAL_DELAY, INITIAL_BUFFER, graphical, RESET_TRANSFORM, RESET_TRANSFORM, 0)
  }

  /** `CanSmooth`: only a non-owner that is not a server-only instance smooths. */
  predicate CanSmooth(h: Host) {
    !h.isOwner && !h.isServerOnly
  }

  /** `OnPreTick`: retarget the delay from the round trip when it moved far enough, and
      capture the graphical object's transform before the simulation moves anything. */
  function OnPreTick(s: SmootherState, h: Host, data: SmoothingData): (r: SmootherState)
    requires data.Valid()
    ensures !CanSmooth(h) ==> r == s
    ensures CanSmooth(h) ==>
              && r.graphicalPretick == s.graphical
              && r.delay.lastPing == Measured(h.roundTripTime)
              && r.delay.current == s.delay.current
              // the targets follow the round-trip gate of `UpdatePingInterpolation`
              && r.delay == UpdatePingInterpolation(s.delay, h.roundTripTime, data)
              && r.(delay := s.delay, graphicalPretick := s.graphicalPretick) == s
  {
    if !CanSmooth(h) then s
    else s.(delay := UpdatePingInterpolation(s.delay, h.roundTripTime, data), graphicalPretick := s.graphical)
  }

  /** `OnPostTick`: step the delay towards its target, put the graphical object back where
      it was at pre-tick, queue a goal for the replicate tick, and remember the root
      transform and tick as the last post-simulation. */
  function OnPostTick(s: SmootherState, h: Host, data: SmoothingData, geo: Geometry): (r: SmootherState)
    requires data.Valid()
    ensures !CanSmooth(h) ==> r == s
    ensures CanSmooth(h) ==>
              && r.graphical == s.graphicalPretick
              && r.graphicalPretick == s.graphicalPretick
              && r.rootPostSimulate == h.root
              && r.postSimulateTick == h.replicateTick
              && r.buffer.current == s.buffer.current
              && r.delay.target == s.delay.target && r.delay.targetCollision == s.delay.targetCollision
              // the delay lands between ordered targets
              && (s.delay.targetCollision <= s.delay.target ==> s.delay.targetCollision <= r.delay.current <= s.delay.target)
              // a tick newer than the current goal is queued at the tail; an older one changes nothing
              && (h.replicateTick > s.buffer.current.localTick ==>
                    && |r.buffer.pending| == |s.buffer.pending| + 1
                    && r.buffer.pending[..|s.buffer.pending|] == s.buffer.pending
                    && r.buffer.pending[|s.buffer.pending|].localTick == h.replicateTick)
              && (h.replicateTick <= s.buffer.current.localTick ==> r.buffer.pending == s.buffer.pending)
    // the delay takes one step, and the goal is measured from the previous post-simulation
    // root before that is overwritten with this tick's
    ensures CanSmooth(h) ==>
              && r.delay == UpdateCurrentInterpolation(s.delay, h.collidingWithLocalClient, data)
              && r.buffer == CreatePostSimulateGoalData(s.buffer, h.replicateTick, true, data, geo,
                                                        s.rootPostSimulate, h.root, s.graphicalPretick)
  {
    if !CanSmooth(h) then s
    else
      var delay := UpdateCurrentInterpolation(s.delay, h.collidingWithLocalClient, data);
      var buffer := CreatePostSimulateGoalData(s.buffer, h.replicateTick, true, data, geo,
                                               s.rootPostSimulate, h.root, s.graphicalPretick);
      SmootherState(delay, buffer, s.graphicalPretick, s.graphicalPretick, h.root, h.replicateTick)
  }

  /** `OnPostReplay`: queue a goal for a replayed tick (a replay of the current goal's tick
      first empties the queue so it is rebuilt from there) and remember the root transform
      and tick. The delay and the graphical object are left alone. */
  function OnPostReplay(s: SmootherState, h: Host, tick: Tick, data: SmoothingData, geo: Geometry): (r: SmootherState)
    requires data.Valid()
    ensures !CanSmooth(h) ==> r == s
    ensures CanSmooth(h) ==>
              && r.delay == s.delay
              && r.graphical == s.graphical
              && r.graphicalPretick == s.graphicalPretick
              && r.rootPostSimulate == h.root
              && r.postSimulateTick == tick
              && r.buffer.current == s.buffer.current
              && (tick == s.buffer.current.localTick ==> r.buffer.pending == [])
              && (tick < s.buffer.current.localTick ==> r.buffer.pending == s.buffer.pending)
              && (tick > s.buffer.current.localTick ==>
                    && |r.buffer.pending| == |s.buffer.pending| + 1
                    && r.buffer.pending[..|s.buffer.pending|] == s.buffer.pending
                    && r.buffer.pending[|s.buffer.pending|].localTick == tick)
    // the goal is measured from the previous post-simulation root before that is overwritten
    ensures CanSmooth(h) ==>
              r.buffer == CreatePostSimulateGoalData(s.buffer, tick, false, data, geo,
                                                     s.rootPostSimulate, h.root, s.graphicalPretick)
  {
    if !CanSmooth(h) then s
    else
      var buffer := CreatePostSimulateGoalData(s.buffer, tick, false, data, geo,
                                               s.rootPostSimulate, h.root, s.graphicalPretick);
      s.(buffer := buffer, rootPostSimulate := h.root, postSimulateTick := tick)
  }

  /** `Update`: once per rendered frame of `delta` seconds, move towards the goals at the
      current delay. */
  function Update(s: SmootherState, h: Host, data: SmoothingData, geo: Geometry, delta: real): (r: SmootherState)
    ensures !CanSmooth(h) ==> r == s
    ensures r.delay == s.delay && r.graphicalPretick == s.graphicalPretick
    ensures r.rootPostSimulate == s.rootPostSimulate && r.postSimulateTick == s.postSimulateTick
    // the queue and the graphics take one frame step at the current delay
    ensures CanSmooth(h) ==>
              Frame(r.buffer, r.graphical) == MoveToTarget(Frame(s.buffer, s.graphical), s.delay.current, data, geo, delta)
  {
    if !CanSmooth(h) then s
    else
      var f := MoveToTarget(Frame(s.buffer, s.graphical), s.delay.current, data, geo, delta);
      s.(buffer := f.buffer, graphical := f.graphical)
  }

  /** The events that drive the smoother. */
  datatype Event =
    | PreTick(host: Host)
    | PostTick(host: Host)
    | PostReplay(host: Host, tick: Tick)
    | RenderFrame(host: Host, delta: real)

  function Step(s: SmootherState, e: Event, data: SmoothingData, geo: Geometry): SmootherState
    requires data.Valid()
  {
    match e
    case PreTick(h) => OnPreTick(s, h, data)
    case PostTick(h) => OnPostTick(s, h, data, geo)
    case PostReplay(h, tick) => OnPostReplay(s, h, tick, data, geo)
    case RenderFrame(h, delta) => Update(s, h, data, geo, delta)
  }

  /** The state after a run of events, oldest first. */
  function Run(s: SmootherState, events: seq<Event>, data: SmoothingData, geo: Geometry): SmootherState
    requires data.Valid()
    decreases |events|
  {
    if events == [] then s else Run(Step(s, events[0], data, geo), events[1..], data, geo)
  }

  /** The collision target never exceeds the normal target. */
  predicate TargetsOrdered(s: SmootherState) {
    s.delay.targetCollision <= s.delay.target
  }

  /** With the collision fraction at most the normal fraction, every hook keeps the targets
      ordered. */
  lemma StepKeepsTargetsOrdered(s: SmootherState, e: Event, data: SmoothingData, geo: Geometry)
    requires data.Valid() && data.CollisionBufferShorter()
    requires TargetsOrdered(s)
    ensures TargetsOrdered(Step(s, e, data, geo))
  {
    if e.PreTick? && CanSmooth(e.host) && PingChanged(s.delay.lastPing, e.host.roundTripTime) {
      RetargetKeepsTargetsOrdered(s.delay, e.host.roundTripTime, data, false, false);
    }
  }

  /** From a fresh smoother, the targets stay ordered whatever the events. */
  lemma {:induction false} RunKeepsTargetsOrdered(s: SmootherState, events: seq<Event>, data: SmoothingData, geo: Geometry)
    requires data.Valid() && data.CollisionBufferShorter()
    requires TargetsOrdered(s)
    ensures TargetsOrdered(Run(s, events, data, geo))
    decreases |events|
  {
    if events != [] {
      StepKeepsTargetsOrdered(s, events[0], data, geo);
      RunKeepsTargetsOrdered(Step(s, events[0], data, geo), events[1..], data, geo);
    }
  }

  /** Hence after any run of events from a fresh smoother, a post-tick leaves the delay
      between the collision target and the normal target. */
  lemma DelayInRangeAfterPostTick(graphical: TransformProperties, events: seq<Event>, h: Host,
                                  data: SmoothingData, geo: Geometry)
    requires data.Valid() && data.CollisionBufferShorter()
    requires CanSmooth(h)
    ensures var r := OnPostTick(Run(Initial(graphical), events, data, geo), h, data, geo);
            r.delay.targetCollision <= r.delay.current <= r.delay.target
  {
    RunKeepsTargetsOrdered(Initial(graphical), events, data, geo);
  }

  /** A fresh smoother starts with a delay of two ticks outside its (zero) targets, so the
      delay is not always in range. */
  lemma InitialDelayOutOfRange(graphical: TransformProperties)
    ensures Initial(graphical).delay.current > Initial(graphical).delay.target
  {
  }

  /** A tick that runs pre-tick then post-tick leaves the graphical object where it was
      before the tick: whatever the simulation did to it while moving the root is undone, so
      between ticks only frames move it. */
  lemma TickRestoresGraphical(s: SmootherState, h: Host, data: SmoothingData, geo: Geometry)
    requires data.Valid()
    ensures OnPostTick(OnPreTick(s, h, data), h, data, geo).graphical == s.graphical
  {
  }

  /** A frame only consumes goals from the front of the queue, and a frame that runs leaves
      the smoother idle only when no goals are pending. */
  lemma UpdateConsumesFromFront(s: SmootherState, h: Host, data: SmoothingData, geo: Geometry, delta: real)
    ensures var r := Update(s, h, data, geo, delta);
            && |r.buffer.pending| <= |s.buffer.pending|
            && r.buffer.pending == s.buffer.pending[|s.buffer.pending| - |r.buffer.pending|..]
            && (CanSmooth(h) && !r.buffer.current.isValid ==> r.buffer.pending == [])
  {
    if CanSmooth(h) {
      MoveToTargetConsumesFromFront(Frame(s.buffer, s.graphical), s.delay.current, data, geo, delta);
    }
  }

  /** Replaying from the current goal's tick rebuilds the queue from scratch: after replays
      of the current tick and then of two newer ticks, exactly the two new goals are
      pending, in replay order. */
  lemma ReplayRebuildsQueue(s: SmootherState, h: Host, t1: Tick, t2: Tick, data: SmoothingData, geo: Geometry)
    requires data.Valid() && CanSmooth(h)
    requires s.buffer.current.localTick < t1 && s.buffer.current.localTick < t2
    ensures var cleared := OnPostReplay(s, h, s.buffer.current.localTick, data, geo);
            var r := OnPostReplay(OnPostReplay(cleared, h, t1, data, geo), h, t2, data, geo);
            && |r.buffer.pending| == 2
            && r.buffer.pending[0].localTick == t1
            && r.buffer.pending[1].localTick == t2
  {
  }
}

=== FILE: transforms.dfy ===
/** World-space transform values and the engine geometry the smoother relies on.

    Positions and rotations are plain value records; the smoother never looks inside
    them except through the geometry operations, which are the engine's
    (`Vector3.Distance`, `Quaternion.Angle`, `Vector3.MoveTowards`,
    `Quaternion.RotateTowards`) and are therefore parameters of the model. */
module Transforms {

  /** A world-space position (the engine's `Vector3`). */
  datatype Vec = Vec(x: real, y: real, z: real)

  /** A world-space rotation (the engine's `Quaternion`), kept as its four components. */
  datatype Quat = Quat(x: real, y: real, z: real, w: real)

  /** Position plus rotation of a transform. Two values are "unchanged" exactly when equal. */
  datatype TransformProperties = TransformProperties(position: Vec, rotation: Quat)

  /** The value a reset transform record holds: every component zero. */
  const RESET_TRANSFORM: TransformProperties :=
    TransformProperties(Vec(0.0, 0.0, 0.0), Quat(0.0, 0.0, 0.0, 0.0))

  /** A non-negative magnitude: a distance or an angle in degrees. */
  type Length = r: real | r >= 0.0

  /** The engine's geometry, left uninterpreted. Distances and angles are never negative. */
  datatype Geometry = Geometry(
    distance: (Vec, Vec) -> Length,
    angle: (Quat, Quat) -> Length,
    moveTowards: (Vec, Vec, real) -> Vec,
    rotateTowards: (Quat, Quat, real) -> Quat)
}
